=== FILE: README.md ===
# RocketMQ Spring Boot starter: startup binding, modelled in Dafny

This project models the two startup routines of the RocketMQ Spring Boot
starter that bind annotated beans to RocketMQ clients:

- the **consumer binder** (`MQConsumerAutoConfiguration.init` and
  `publishConsumer`): for each bean annotated with `@MQConsumer`, in container
  order, check the name-server address, the consumer group, the topic and the
  bean's class; resolve group and topic through the environment; build a push
  client (dispatching on the consume mode `CONCURRENTLY` / `ORDERLY`) or a pull
  client; start it. The first failure aborts startup.
- the **producer binder** (`MQProducerAutoConfiguration.init` and
  `publishProducer`): when producer beans exist, create the one shared
  `DefaultMQProducer` if the cell holding it is still null (checking the
  producer group, then the name-server address), then give every producer bean
  that client and its resolved default topic and tag.
- the **delivery adapters**: the anonymous `MessageListenerConcurrently` and
  `MessageListenerOrderly` classes that forward each batch to the bean's
  `dealMessage`.

Everything is pure. The Spring environment is a `map<string, string>` (a
missing key is a property that resolves to null). The beans are a sequence of
records. The consumer binder's calls into the RocketMQ client and into the
beans are an `Action` trace, returned together with an outcome (`Pass`, or
`Fail` with the exception thrown). The trace holds the calls made before a
throw, so a partially configured client is visible. The producer binder's
calls to create the shared client are a trace too. Its calls into the beans
(`setProducer`, `setTopic`, `setTag`) are not trace actions: their effect is
the updated `ProducerBean` records that it returns.

Facts about traces are stated with two folds over the trace: `Occurs(t, a)`
(the call `a` was made) and `Precedes(t, a, b)` (a call `a` was made before a
call `b`). `Actions.OccursIsMembership` and `Actions.PrecedesIsPositions`
show that they mean membership and an ordered pair of positions.

Modules, one per file:

| file | module | contents |
|---|---|---|
| results.dfy | Results | `Option`, `Outcome`, `Result` |
| config.dfy | Config | environment, global properties, the override rule |
| tagfilter.dfy | TagFilter | the `"||"`-joined tag filter and its reading |
| actions.dfy | Actions | client calls, errors, traces, the fail-fast loop |
| lifecycle.dfy | Lifecycle | the per-client lifecycle automaton |
| delivery.dfy | Delivery | consume-mode dispatch and listener adapters |
| consumer.dfy | ConsumerBinder | `publishConsumer` and the consumer `init` loop |
| producer.dfy | ProducerBinder | `publishProducer`, producer `init`, repeated `init` |
| scenarios.dfy | Scenarios | concrete startup scenarios |

Two independent definitions check the operations:

- `TagFilter.Split` reads a subscription expression back into tags.
- `Lifecycle.Step` is an automaton for the order of the calls on each client:
  Unbound, constructed and being configured, listener installed (push only),
  started, then handed to the bean (pull only), then Ready. It rejects, for
  example, a push client started before its listener, a configuration call
  after the start, and an empty group, topic or address in the call that
  sets it. It does not demand that every configuration call is made, nor that
  each is made once. The contracts of `PushPath`, `PullPath` and
  `PublishConsumer` state both. Each builds exactly one client and makes the
  address, message-model and (push) subscription calls. `ConfiguredWith` says
  no such call carries another value, so the client ends up with exactly that
  address, that model and that one subscription.

Behaviour of the code that the model keeps:

- A bean whose class is both a push and a pull consumer takes the push path,
  because the push base class is tested first.
- The missing-field and consume-mode errors carry fixed messages, with no
  component name and no offending value. `NotAConsumer` carries the class name
  and `NotAProducer` the bean name.
- The push path hands the client to the bean (`setConsumer`) after the listener
  is registered and before `start`.
- The listener a push client registers is built by `Delivery.Adapt` from the
  bean's own `dealMessage` overloads (the bean's `handler`). The trace records
  it as `RegisterListener(kind, bean name)`.

## Model

| member | source | states |
|---|---|---|
| Config.Resolve | src/main/java/com/maihaoche/starter/mq/config/MQConsumerAutoConfiguration.java:60-67 | a non-empty environment value under the literal wins, otherwise the literal is used; the result is empty only when the literal is empty and there is no override |
| Config.ApplyOverride | src/main/java/com/maihaoche/starter/mq/config/MQProducerAutoConfiguration.java:60-78 | an empty annotation value leaves the current field unchanged; otherwise the field becomes the non-empty override or the literal, and is never empty |
| Config.EmptyOverrideIsNoOverride | src/main/java/com/maihaoche/starter/mq/config/MQConsumerAutoConfiguration.java:60-63 | an environment value of "" resolves exactly as an absent property |
| TagFilter.Join | src/main/java/com/maihaoche/starter/mq/config/MQConsumerAutoConfiguration.java:74 | no tags give "", one tag gives itself, several start with the first tag followed by the separator "||" |
| TagFilter.SplitJoin | src/main/java/com/maihaoche/starter/mq/config/MQConsumerAutoConfiguration.java:74 | for at least one tag and no bar character inside a tag, reading the joined expression at each double bar gives back exactly the declared tags in order |
| Actions.RunAll | src/main/java/com/maihaoche/starter/mq/config/MQConsumerAutoConfiguration.java:37-42 | the loop succeeds iff every bean's binding succeeds, and then its calls are every binding's calls in order (`Flatten`); a failed loop carries the error of one of the beans |
| Actions.RunAllStopsAtFirstFailure | src/main/java/com/maihaoche/starter/mq/config/MQConsumerAutoConfiguration.java:38-41 | when binding k is the first to throw, the loop's result equals that of bindings 0..k alone: their calls in order, and binding k's error |
| Actions.RunAllInstanceIds | src/main/java/com/maihaoche/starter/mq/config/MQConsumerAutoConfiguration.java:38-41 | when each binding names its client with its own fresh name, the loop assigns a prefix of the fresh names in order, and all of them when it succeeds |
| Actions.RunAllConstructs | src/main/java/com/maihaoche/starter/mq/config/MQConsumerAutoConfiguration.java:38-41 | when every successful binding constructs exactly one client, a successful loop constructs exactly one client per binding |
| Delivery.ListenerKindOf | src/main/java/com/maihaoche/starter/mq/config/MQConsumerAutoConfiguration.java:77-96 | "CONCURRENTLY" selects the concurrent listener, "ORDERLY" the orderly one, and every other string is unsupported |
| Delivery.Adapt | src/main/java/com/maihaoche/starter/mq/config/MQConsumerAutoConfiguration.java:76-96 | a listener exists exactly for the two supported modes and is of the selected kind; for every batch and context it returns what the bean's `dealMessage` returns for that same batch and context |
| ConsumerBinder.Validate | src/main/java/com/maihaoche/starter/mq/config/MQConsumerAutoConfiguration.java:46-58 | the checks run in the order address, group, topic, capability: each error is raised iff all earlier checks pass and its own fails; the capability error names the class; success iff all four hold |
| ConsumerBinder.PushPath | src/main/java/com/maihaoche/starter/mq/config/MQConsumerAutoConfiguration.java:70-98 | constructs exactly one client, for the given group, first; gives the client the address, the message model and the subscription to the topic with the joined tags, and no other address, model or subscription; names the instance once; succeeds iff the mode is supported; an unknown mode throws the mode error after configuring the client, with no listener registered, no hand-over to the bean and no start; on success the listener for the mode, naming this bean, is registered before the client is handed to the bean, which is before the start, the last call |
| ConsumerBinder.PullPath | src/main/java/com/maihaoche/starter/mq/config/MQConsumerAutoConfiguration.java:99-113 | constructs exactly one client, for the given group, first; gives the client the address and the message model, and no other address or model and no subscription; names the instance once; starts the client before the bean gets its topic, then its client, then its inner start, which is the last call |
| ConsumerBinder.PublishConsumer | src/main/java/com/maihaoche/starter/mq/config/MQConsumerAutoConfiguration.java:44-114 | a failed check throws its error with no client call; otherwise exactly one client is constructed, first: a push client (whenever the class is a push consumer) or else a pull client for the resolved group; the client gets the configured address and the declared message model, and a push client the subscription to the resolved topic with the joined tags, with no other address, model or subscription set; a pull bean is given the resolved topic after the start; success iff the checks pass and, on the push path, the mode is supported; an unsupported mode on a push bean throws the mode error and the client is never handed to the bean; a successful push binding registers the listener `Adapt` builds over this bean's handler; the client is started iff the binding succeeds; exactly one instance name is assigned iff the checks pass |
| ConsumerBinder.PushFollowsLifecycle | src/main/java/com/maihaoche/starter/mq/config/MQConsumerAutoConfiguration.java:70-98 | a successful push path takes a client from idle to Ready through the lifecycle automaton; an unknown mode leaves it configured, never started |
| ConsumerBinder.PullFollowsLifecycle | src/main/java/com/maihaoche/starter/mq/config/MQConsumerAutoConfiguration.java:103-113 | the pull path takes a client from idle to Ready through the lifecycle automaton |
| ConsumerBinder.PublishFollowsLifecycle | src/main/java/com/maihaoche/starter/mq/config/MQConsumerAutoConfiguration.java:44-114 | every successful binding follows the lifecycle to Ready; a failed one leaves no client or only a configured, unstarted push client |
| ConsumerBinder.BindingsAt | src/main/java/com/maihaoche/starter/mq/config/MQConsumerAutoConfiguration.java:38-41 | the i-th binding the startup loop performs is the publication of the i-th consumer bean with the i-th fresh instance name |
| ConsumerBinder.Init | src/main/java/com/maihaoche/starter/mq/config/MQConsumerAutoConfiguration.java:37-42 | no beans: no call and success; otherwise success iff every binding succeeds, and then startup makes every binding's calls, bean after bean; a failed startup carries the error of one of the bindings (per bean: `InitOutcome`, `InitFailsWithBeanError`; which bean and which calls: `InitFailFast`) |
| ConsumerBinder.InitOutcome | src/main/java/com/maihaoche/starter/mq/config/MQConsumerAutoConfiguration.java:37-42 | startup succeeds iff every bean's binding succeeds |
| ConsumerBinder.InitFailsWithBeanError | src/main/java/com/maihaoche/starter/mq/config/MQConsumerAutoConfiguration.java:37-42 | a failed startup carries the error of one of the beans |
| ConsumerBinder.InitFailFast | src/main/java/com/maihaoche/starter/mq/config/MQConsumerAutoConfiguration.java:38-41 | when bean k is the first to fail, startup makes exactly the calls of bindings 0..k in order, so later beans make no call, and it ends with bean k's error |
| ConsumerBinder.InitStopsAt | src/main/java/com/maihaoche/starter/mq/config/MQConsumerAutoConfiguration.java:38-41 | the same fail-fast property stated over the bindings: when binding k is the first failure, startup equals startup over beans 0..k and carries binding k's error |
| ConsumerBinder.InitInstanceIds | src/main/java/com/maihaoche/starter/mq/config/MQConsumerAutoConfiguration.java:75 | the instance names assigned are a prefix of the fresh names in order, and all of them when startup succeeds, so distinct fresh names give distinct client instances |
| ConsumerBinder.InitConstructsOnePerBean | src/main/java/com/maihaoche/starter/mq/config/MQConsumerAutoConfiguration.java:38-41 | a successful startup constructs exactly one client per consumer bean |
| ConsumerBinder.InitFollowsLifecycle | src/main/java/com/maihaoche/starter/mq/config/MQConsumerAutoConfiguration.java:39-41 | a successful startup replays through the lifecycle automaton client after client and ends with the last client Ready |
| Lifecycle.RunAllFollowsLifecycle | src/main/java/com/maihaoche/starter/mq/config/MQConsumerAutoConfiguration.java:39-41 | when each binding on its own goes from an idle phase to Ready, a successful loop over the bindings goes from idle to Ready through one client after another, and leaves the phase alone when there are no beans |
| ProducerBinder.PublishProducer | src/main/java/com/maihaoche/starter/mq/config/MQProducerAutoConfiguration.java:52-78 | a non-producer class throws naming the bean; otherwise the bean gets the shared client, and topic and tag are unchanged when the annotation value is empty, else the non-empty override or the literal |
| ProducerBinder.BindAll | src/main/java/com/maihaoche/starter/mq/config/MQProducerAutoConfiguration.java:47-49 | every bean keeps its position and is either untouched or bound as by PublishProducer; success iff every bean is a producer, and then all are bound to the shared client; a failure is the error naming a bean that is not a producer |
| ProducerBinder.BindAllStopsAt | src/main/java/com/maihaoche/starter/mq/config/MQProducerAutoConfiguration.java:47-55 | when bean k is the first non-producer, the loop throws the error naming bean k, and bean k and every later bean are left untouched |
| ProducerBinder.BindAllBindsPrefix | src/main/java/com/maihaoche/starter/mq/config/MQProducerAutoConfiguration.java:47-48 | every bean before the first non-producer ends up exactly as binding it alone gives: the shared client and its resolved topic and tag |
| ProducerBinder.Init | src/main/java/com/maihaoche/starter/mq/config/MQProducerAutoConfiguration.java:30-50 | no beans: nothing happens and nothing fails; with an empty cell the group is checked before the address and neither failure constructs anything; after the call the cell holds a client iff it held one before or there are beans and group and address are set; a full cell is kept and nothing is constructed; a new client has the configured group and address and is constructed, addressed and started; once a client is available the beans and the outcome are those of the binding loop over that client, so beans bound before a failure stay bound; success iff there are no beans, or a client is available and every bean is a producer; then every bean holds the cell's client; a failure with a client is the error naming a non-producer bean |
| ProducerBinder.InitKeepsBoundPrefix | src/main/java/com/maihaoche/starter/mq/config/MQProducerAutoConfiguration.java:47-78 | with a client available and bean k the first non-producer, init throws the error naming bean k, every earlier bean stays bound exactly as binding it alone gives, and bean k and every later bean are untouched |
| ProducerBinder.InitMany | src/main/java/com/maihaoche/starter/mq/config/MQProducerAutoConfiguration.java:36-46 | across repeated init calls at most one client is constructed, none if the cell starts full, and a full cell is never replaced |
| Scenarios.GroupOverrideScenario | src/main/java/com/maihaoche/starter/mq/config/MQConsumerAutoConfiguration.java:60-74 | group "G1" overridden to "G1-prod" binds a client for "G1-prod" on topic "T1" with filter a, double bar, b |
| Scenarios.NoCapabilityScenario | src/main/java/com/maihaoche/starter/mq/config/MQConsumerAutoConfiguration.java:55-58 | a bean with neither capability fails naming its class, with no client call |
| Scenarios.UnknownModeScenario | src/main/java/com/maihaoche/starter/mq/config/MQConsumerAutoConfiguration.java:94-96 | consume mode "UNKNOWN" fails with the mode error and starts nothing |
| Scenarios.NoProducersScenario | src/main/java/com/maihaoche/starter/mq/config/MQProducerAutoConfiguration.java:31-35 | no producer beans: no client and no error, even with empty group and address |

## Left out

- Spring container calls (`getBeansWithAnnotation`, `findAnnotationOnBean`, `getEnvironment().getProperty`): the beans with their annotations are a given sequence in container order, and the environment is a map. Property placeholder resolution inside `getProperty` is not modelled.
- Class hierarchy: `isAssignableFrom` tests become the booleans `push`, `pull` and `isProducer` on the bean record. A push bean's two `dealMessage` overloads are the function pair `handler`; the listener objects themselves are not stored in the trace, which names the listener's kind and the bean it forwards to.
- `MessageModel.valueOf`: the message model is the closed enumeration `Clustering | Broadcasting`, so the library's parse failure for another string is not modelled.
- `UUID.randomUUID()`: the instance names are supplied as a sequence, one per bean; their distinctness is a hypothesis of `ConsumerBinder.InitInstanceIds`, not a consequence.
- Object identity of the shared producer: a supplied `handle` number stands for the reference.
- RocketMQ client internals: construction, `start`, `subscribe` and `send` are trace actions only. `start` never fails in the model, so broker start-up errors are not modelled.
- Null values: the global properties are strings in which null and "" are both "" (the code tests them only with `StringUtils.isEmpty`); annotation attributes are never null in Java, and `StringUtils.join` treatment of null tags is not modelled.
- Delivery.Adapt: states the forwarding of batch, context and status; the concurrent and orderly threading guarantees belong to the RocketMQ client and are not modelled, nor are the bodies of `dealMessage` and `startInner`.
- Logging: the readiness messages at MQConsumerAutoConfiguration.java:116 and MQProducerAutoConfiguration.java:79.
- Spring wiring: `@PostConstruct`, `@Configuration` and `@ConditionalOnBean` only decide when `init` runs. `InitMany` models repeated calls as a sequence.

=== FILE: actions.dfy ===
/** The abstract trace of calls the binders make into the broker client and the beans. */
module Actions {
  import opened Results
  import Seqs

  /** Which broker client class a `Construct` instantiates. */
  datatype ClientKind = PushKind | PullKind | ProducerKind

  /** Which listener interface a push consumer is given. */
  datatype ListenerKind = ConcurrentListener | OrderlyListener

  /** The consumer's message model (parsed by the library from the annotation). */
  datatype MessageModel = Clustering | Broadcasting

  /** One observable call made while binding a bean. */
  datatype Action =
    | Construct(kind: ClientKind, group: string)   // new DefaultMQ...(group)
    | SetNamesrv(addr: string)                      // client.setNamesrvAddr
    | SetMessageModel(model: MessageModel)          // client.setMessageModel
    | Subscribe(topic: string, expr: string)        // push client.subscribe
    | SetInstance(id: string)                       // client.setInstanceName
    | RegisterListener(listener: ListenerKind, bean: string)  // push client.registerMessageListener, forwarding to the named bean
    | SetConsumer                                   // bean.setConsumer(client)
    | Start                                         // client.start
    | SetTopic(topic: string)                       // pull bean.setTopic
    | StartInner                                    // pull bean.startInner

  /** The RuntimeExceptions the binders throw. */
  datatype BindError =
    | NameServerMissing
    | ConsumerGroupMissing
    | ConsumerTopicMissing
    | NotAConsumer(className: string)
    | UnknownConsumeMode
    | ProducerGroupMissing
    | NotAProducer(beanName: string)

  /** The calls made, in order, up to completion or up to the throw, and how it ended. */
  datatype Run = Run(trace: seq<Action>, outcome: Outcome<BindError>)

  /** The trace contains `a`. */
  predicate Occurs(trace: seq<Action>, a: Action)
    decreases |trace|
  {
    |trace| > 0 && (Occurs(trace[..|trace| - 1], a) || trace[|trace| - 1] == a)
  }

  /** Some `a` occurs strictly before some `b` in the trace. */
  predicate Precedes(trace: seq<Action>, a: Action, b: Action)
    decreases |trace|
  {
    && |trace| > 0
    && (|| Precedes(trace[..|trace| - 1], a, b)
        || (trace[|trace| - 1] == b && Occurs(trace[..|trace| - 1], a)))
  }

  /** `Occurs` is membership. */
  lemma {:induction false} OccursIsMembership(trace: seq<Action>, a: Action)
    ensures Occurs(trace, a) <==> a in trace
    decreases |trace|
  {
    if |trace| > 0 {
      var init := trace[..|trace| - 1];
      OccursIsMembership(init, a);
      assert trace == init + [trace[|trace| - 1]];
    }
  }

  /** A `Precedes` fact has a witness pair of positions. */
  lemma {:induction false} PrecedesHasPositions(trace: seq<Action>, a: Action, b: Action)
    requires Precedes(trace, a, b)
    ensures exists i, j :: 0 <= i < j < |trace| && trace[i] == a && trace[j] == b
    decreases |trace|
  {
    var n := |trace| - 1;
    var init := trace[..n];
    if Precedes(init, a, b) {
      PrecedesHasPositions(init, a, b);
      var i, j :| 0 <= i < j < |init| && init[i] == a && init[j] == b;
      assert trace[i] == a && trace[j] == b;
    } else {
      OccursIsMembership(init, a);
      var i :| 0 <= i < |init| && init[i] == a;
      assert trace[i] == a && trace[n] == b;
    }
  }

  /** An occurrence of `a` before an occurrence of `b` makes a `Precedes` fact. */
  lemma {:induction false} PositionsGivePrecedes(trace: seq<Action>, a: Action, b: Action, i: nat, j: nat)
    requires i < j < |trace| && trace[i] == a && trace[j] == b
    ensures Precedes(trace, a, b)
    decreases |trace|
  {
    var n := |trace| - 1;
    var init := trace[..n];
    assert init[i] == a;
    if j < n {
      assert init[j] == b;
      PositionsGivePrecedes(init, a, b, i, j);
    } else {
      OccursIsMembership(init, a);
    }
  }

  /** `Precedes` means an occurrence of `a` at a smaller position than an occurrence of `b`. */
  lemma PrecedesIsPositions(trace: seq<Action>, a: Action, b: Action)
    ensures Precedes(trace, a, b) <==>
      exists i, j :: 0 <= i < j < |trace| && trace[i] == a && trace[j] == b
  {
    if Precedes(trace, a, b) {
      PrecedesHasPositions(trace, a, b);
    }
    if exists i, j :: 0 <= i < j < |trace| && trace[i] == a && trace[j] == b {
      var i, j :| 0 <= i < j < |trace| && trace[i] == a && trace[j] == b;
      PositionsGivePrecedes(trace, a, b, i, j);
    }
  }

  /** How many clients the trace constructs. */
  function Constructs(trace: seq<Action>): (n: nat)
    ensures n <= |trace|
    ensures n == 0 <==> forall i :: 0 <= i < |trace| ==> !trace[i].Construct?
  {
    if |trace| == 0 then 0
    else Constructs(trace[..|trace| - 1]) + (if trace[|trace| - 1].Construct? then 1 else 0)
  }

  /** The instance name one action assigns, if any. */
  function InstanceIdOf(a: Action): seq<string>
  {
    if a.SetInstance? then [a.id] else []
  }

  /** The instance names the trace assigns, in order. */
  function InstanceIds(trace: seq<Action>): (ids: seq<string>)
    ensures |ids| <= |trace|
  {
    if |trace| == 0 then []
    else InstanceIds(trace[..|trace| - 1]) + InstanceIdOf(trace[|trace| - 1])
  }

  lemma {:induction false} ConstructsAppend(a: seq<Action>, b: seq<Action>)
    ensures Constructs(a + b) == Constructs(a) + Constructs(b)
    decreases |b|
  {
    if |b| == 0 {
      assert a + b == a;
    } else {
      var b' := b[..|b| - 1];
      assert (a + b)[..|a + b| - 1] == a + b';
      assert (a + b)[|a + b| - 1] == b[|b| - 1];
      ConstructsAppend(a, b');
    }
  }

  lemma {:induction false} InstanceIdsAppend(a: seq<Action>, b: seq<Action>)
    ensures InstanceIds(a + b) == InstanceIds(a) + InstanceIds(b)
    decreases |b|
  {
    if |b| == 0 {
      assert a + b == a;
    } else {
      var b' := b[..|b| - 1];
      assert (a + b)[..|a + b| - 1] == a + b';
      assert (a + b)[|a + b| - 1] == b[|b| - 1];
      InstanceIdsAppend(a, b');
    }
  }

  /** A binding that completed without throwing. */
  predicate Passes(run: Run)
  {
    run.outcome.Pass?
  }

  /** Every binding completed without throwing. */
  predicate AllPass(runs: seq<Run>)
  {
    forall i {:trigger Passes(runs[i])} :: 0 <= i < |runs| ==> Passes(runs[i])
  }

  /** The calls of the runs, one run's calls after another's. */
  function Flatten(runs: seq<Run>): seq<Action>
    decreases |runs|
  {
    if |runs| == 0 then [] else runs[0].trace + Flatten(runs[1..])
  }

  /**
   * A binding that named its client `id`, or threw before naming any client.
   */
  predicate AssignsId(run: Run, id: string)
  {
    InstanceIds(run.trace) == [id] || (run.outcome.Fail? && InstanceIds(run.trace) == [])
  }

  /**
   * The startup loop's fail-fast composition of per-bean runs, in order: the
   * calls of every bean up to and including the first that throws, and that
   * bean's error; or all the calls and success.
   */
  function RunAll(runs: seq<Run>): (r: Run)
    ensures r.outcome.Pass? <==> forall i {:trigger Passes(runs[i])} :: 0 <= i < |runs| ==> Passes(runs[i])
    ensures r.outcome.Fail? ==> exists i :: 0 <= i < |runs| && r.outcome == runs[i].outcome
    ensures r.outcome.Pass? ==> r.trace == Flatten(runs)
    decreases |runs|
  {
    if |runs| == 0 then Run([], Pass)
    else if runs[0].outcome.Fail? then
      assert !Passes(runs[0]);
      runs[0]
    else
      var rest := RunAll(runs[1..]);
      assert forall i :: 1 <= i < |runs| ==> runs[i] == runs[1..][i - 1];
      Run(runs[0].trace + rest.trace, rest.outcome)
  }

  /**
   * When run `k` is the first to fail, the loop's result is that of the runs
   * up to and including `k` alone: their calls, in order, and run `k`'s error.
   */
  lemma {:induction false} RunAllStopsAtFirstFailure(runs: seq<Run>, k: nat)
    requires k < |runs|
    requires forall i :: 0 <= i < k ==> Passes(runs[i])
    requires runs[k].outcome.Fail?
    ensures RunAll(runs) == RunAll(runs[..k + 1])
    ensures RunAll(runs).outcome == runs[k].outcome
    ensures RunAll(runs).trace == Flatten(runs[..k + 1])
    decreases k
  {
    var prefix := runs[..k + 1];
    assert prefix[0] == runs[0];
    if k == 0 {
      assert prefix[1..] == [];
    } else {
      var tail := runs[1..];
      assert forall i :: 0 <= i < k - 1 ==> tail[i] == runs[i + 1];
      assert tail[k - 1] == runs[k];
      RunAllStopsAtFirstFailure(tail, k - 1);
      Seqs.TailOfPrefix(runs, k);
      assert prefix[1..] == tail[..k];
    }
  }

  /**
   * When every run that succeeds constructs exactly one client, a successful
   * loop constructs exactly one client per run.
   */
  lemma {:induction false} RunAllConstructs(runs: seq<Run>)
    requires forall i :: 0 <= i < |runs| ==> Passes(runs[i]) ==> Constructs(runs[i].trace) == 1
    requires RunAll(runs).outcome.Pass?
    ensures Constructs(RunAll(runs).trace) == |runs|
    decreases |runs|
  {
    if |runs| > 0 {
      var tail := runs[1..];
      forall i | 0 <= i < |tail|
        ensures Passes(tail[i]) ==> Constructs(tail[i].trace) == 1
      {
        assert tail[i] == runs[i + 1];
      }
      RunAllConstructs(tail);
      ConstructsAppend(runs[0].trace, RunAll(tail).trace);
    }
  }

  /** `RunAllStopsAtFirstFailure` for a sequence of runs known to be the prefix. */
  lemma RunAllOfPrefix(runs: seq<Run>, prefix: seq<Run>, k: nat)
    requires k < |runs| && prefix == runs[..k + 1]
    requires forall i :: 0 <= i < k ==> Passes(runs[i])
    requires runs[k].outcome.Fail?
    ensures RunAll(runs) == RunAll(prefix)
    ensures RunAll(runs).outcome == runs[k].outcome
  {
    RunAllStopsAtFirstFailure(runs, k);
  }

  /**
   * When every run assigns the instance name `ids[i]` (a failing run may
   * assign none), the loop assigns a prefix of `ids`, in order, and all of
   * them when it succeeds.
   */
  lemma {:induction false} RunAllInstanceIds(runs: seq<Run>, ids: seq<string>)
    requires |ids| == |runs|
    requires forall i :: 0 <= i < |runs| ==> AssignsId(runs[i], ids[i])
    ensures |InstanceIds(RunAll(runs).trace)| <= |ids|
    ensures InstanceIds(RunAll(runs).trace) == ids[..|InstanceIds(RunAll(runs).trace)|]
    ensures RunAll(runs).outcome.Pass? ==> InstanceIds(RunAll(runs).trace) == ids
    decreases |runs|
  {
    if |runs| == 0 {
      assert ids[..0] == [];
    } else if runs[0].outcome.Fail? {
      assert ids[..0] == [] && ids[..1] == [ids[0]];
    } else {
      var tail := runs[1..];
      var later := ids[1..];
      forall i | 0 <= i < |tail|
        ensures AssignsId(tail[i], later[i])
      {
        assert tail[i] == runs[i + 1] && later[i] == ids[i + 1];
      }
      RunAllInstanceIds(tail, later);
      var rest := RunAll(tail);
      var n := |InstanceIds(rest.trace)|;
      assert AssignsId(runs[0], ids[0]);
      assert RunAll(runs).trace == runs[0].trace + rest.trace;
      InstanceIdsAppend(runs[0].trace, rest.trace);
      Seqs.PrefixCons(ids, n);
      assert ids == [ids[0]] + later;
    }
  }

}

=== FILE: config.dfy ===
/** The configuration resolver: environment overrides of annotation literals. */
module Config {

  /**
   * The Spring environment seen as a property source. A key that is not in
   * the map is a property that resolves to null.
   */
  type Env = map<string, string>

  /**
   * The starter's global properties. Both values are only ever used after a
   * StringUtils.isEmpty test, so a null property and an empty one are both
   * represented by "".
   */
  datatype Props = Props(nameServerAddress: string, producerGroup: string)

  /** The environment holds a non-empty value under `key`. */
  predicate HasOverride(env: Env, key: string)
  {
    key in env && env[key] != ""
  }

  /**
   * The effective value of an annotation literal: the literal is looked up as
   * a property key, a non-empty property wins, and otherwise (absent or empty)
   * the literal itself is used.
   */
  function Resolve(env: Env, nominal: string): (r: string)
    ensures HasOverride(env, nominal) ==> r == env[nominal]
    ensures !HasOverride(env, nominal) ==> r == nominal
    ensures r != "" <==> nominal != "" || HasOverride(env, nominal)
  {
    if HasOverride(env, nominal) then env[nominal] else nominal
  }

  /**
   * A producer-level default: left as `current` when the annotation value is
   * empty, and otherwise set to the resolved annotation value, which is then
   * never empty.
   */
  function ApplyOverride(env: Env, current: string, nominal: string): (r: string)
    ensures nominal == "" ==> r == current
    ensures nominal != "" && HasOverride(env, nominal) ==> r == env[nominal]
    ensures nominal != "" && !HasOverride(env, nominal) ==> r == nominal
    ensures nominal != "" ==> r != ""
  {
    if nominal == "" then current else Resolve(env, nominal)
  }

  /**
   * An empty override is the same as no override: setting the property to ""
   * or removing it leaves every resolution unchanged.
   */
  lemma EmptyOverrideIsNoOverride(env: Env, key: string, nominal: string)
    ensures Resolve(env[key := ""], nominal) == Resolve(env - {key}, nominal)
  {
  }
}

=== FILE: consumer.dfy ===
/**
 * The consumer binder: for every bean annotated as a consumer, in the order
 * the container lists them, validate, resolve group and topic, and construct,
 * configure and start a push or a pull client. The first failure aborts the
 * whole startup.
 */
module ConsumerBinder {
  import opened Results
  import opened Config
  import opened Actions
  import opened TagFilter
  import opened Delivery
  import opened Lifecycle

  /** The consumer annotation's attributes. */
  datatype ConsumerMeta = ConsumerMeta(
    consumerGroup: string,
    topic: string,
    tags: seq<string>,
    messageModel: MessageModel,
    consumeMode: string)

  /**
   * A consumer bean: its container name, its class name, whether its class
   * extends the push-consumer and/or the pull-consumer base class, its
   * annotation, and its two `dealMessage` overloads (called only through the
   * listener of a push bean).
   */
  datatype ConsumerBean = ConsumerBean(
    name: string,
    className: string,
    push: bool,
    pull: bool,
    meta: ConsumerMeta,
    handler: Handler)

  /** All the checks made before any client is touched pass. */
  predicate Valid(props: Props, bean: ConsumerBean)
  {
    && props.nameServerAddress != ""
    && bean.meta.consumerGroup != ""
    && bean.meta.topic != ""
    && (bean.push || bean.pull)
  }

  /**
   * The ordered checks: name-server address, then consumer group, then topic,
   * then capability. Each error is raised exactly when every earlier check
   * passed and its own fails.
   */
  function Validate(props: Props, bean: ConsumerBean): (r: Outcome<BindError>)
    ensures r.Pass? <==> Valid(props, bean)
    ensures r == Fail(NameServerMissing) <==> props.nameServerAddress == ""
    ensures r == Fail(ConsumerGroupMissing) <==>
      props.nameServerAddress != "" && bean.meta.consumerGroup == ""
    ensures r == Fail(ConsumerTopicMissing) <==>
      props.nameServerAddress != "" && bean.meta.consumerGroup != "" && bean.meta.topic == ""
    ensures r.Fail? && r.error.NotAConsumer? <==>
      props.nameServerAddress != "" && bean.meta.consumerGroup != "" && bean.meta.topic != ""
      && !bean.push && !bean.pull
    ensures r.Fail? && r.error.NotAConsumer? ==> r.error.className == bean.className
  {
    if props.nameServerAddress == "" then Fail(NameServerMissing)
    else if bean.meta.consumerGroup == "" then Fail(ConsumerGroupMissing)
    else if bean.meta.topic == "" then Fail(ConsumerTopicMissing)
    else if !bean.push && !bean.pull then Fail(NotAConsumer(bean.className))
    else Pass
  }

  /**
   * The call sets no other name-server address, message model or
   * subscription than the given ones; with `sub` None it subscribes to
   * nothing.
   */
  predicate ConfigCallAgrees(a: Action, addr: string, model: MessageModel, sub: Option<Action>)
  {
    && (a.SetNamesrv? ==> a == SetNamesrv(addr))
    && (a.SetMessageModel? ==> a == SetMessageModel(model))
    && (a.Subscribe? ==> sub == Some(a))
  }

  /**
   * Every call of the trace agrees with the given configuration. The client's
   * setters overwrite and its subscriptions accumulate, so a trace that also
   * makes each of these calls leaves the client with exactly this address,
   * this message model and this one subscription.
   */
  predicate ConfiguredWith(trace: seq<Action>, addr: string, model: MessageModel, sub: Option<Action>)
  {
    forall a :: a in trace ==> ConfigCallAgrees(a, addr, model, sub)
  }

  /** The push client's configuration, up to and including its instance name. */
  function PushSetup(addr: string, group: string, topic: string, meta: ConsumerMeta, instanceId: string): seq<Action>
  {
    var t1 := [Construct(PushKind, group)];
    var t2 := t1 + [SetNamesrv(addr)];
    var t3 := t2 + [SetMessageModel(meta.messageModel)];
    var t4 := t3 + [Subscribe(topic, Join(meta.tags))];
    t4 + [SetInstance(instanceId)]
  }

  /** The rest of a successful push binding: listener for bean `name`, hand-over, start. */
  function PushFinish(setup: seq<Action>, k: ListenerKind, name: string): seq<Action>
  {
    var t6 := setup + [RegisterListener(k, name)];
    var t7 := t6 + [SetConsumer];
    t7 + [Start]
  }

  /** The pull client's configuration, up to and including its instance name. */
  function PullSetup(addr: string, group: string, meta: ConsumerMeta, instanceId: string): seq<Action>
  {
    var t1 := [Construct(PullKind, group)];
    var t2 := t1 + [SetNamesrv(addr)];
    var t3 := t2 + [SetMessageModel(meta.messageModel)];
    t3 + [SetInstance(instanceId)]
  }

  /** The rest of the pull binding: start, topic and client hand-over, inner start. */
  function PullFinish(setup: seq<Action>, topic: string): seq<Action>
  {
    var t5 := setup + [Start];
    var t6 := t5 + [SetTopic(topic)];
    var t7 := t6 + [SetConsumer];
    t7 + [StartInner]
  }

  /**
   * The push configuration addresses the client, sets its message model,
   * subscribes and names one instance; it registers no listener, hands
   * nothing to the bean and starts nothing.
   */
  lemma PushSetupFacts(addr: string, group: string, topic: string, meta: ConsumerMeta, instanceId: string)
    ensures var t := PushSetup(addr, group, topic, meta, instanceId);
      && |t| > 0 && t[0] == Construct(PushKind, group)
      && Occurs(t, SetNamesrv(addr))
      && Occurs(t, SetMessageModel(meta.messageModel))
      && Occurs(t, Subscribe(topic, Join(meta.tags)))
      && InstanceIds(t) == [instanceId]
      && !Occurs(t, Start)
      && !Occurs(t, SetConsumer)
      && (forall a: Action {:trigger Occurs(t, a)} :: a.RegisterListener? ==> !Occurs(t, a))
  {
    var addressed := SetNamesrv(addr);
    var model := SetMessageModel(meta.messageModel);
    var sub := Subscribe(topic, Join(meta.tags));
    var t1 := [Construct(PushKind, group)];
    var t2 := t1 + [addressed];
    var t3 := t2 + [model];
    var t4 := t3 + [sub];
    var t5 := t4 + [SetInstance(instanceId)];
    assert PushSetup(addr, group, topic, meta, instanceId) == t5;
    assert InstanceIds(t1) == [] && InstanceIds(t2) == [] && InstanceIds(t3) == [] && InstanceIds(t4) == [];
    assert Occurs(t2, addressed) && Occurs(t3, addressed) && Occurs(t4, addressed);
    assert Occurs(t3, model) && Occurs(t4, model);
    assert Occurs(t4, sub);
    forall a | a == Start || a == SetConsumer || a.RegisterListener?
      ensures !Occurs(t1, a) && !Occurs(t2, a) && !Occurs(t3, a) && !Occurs(t4, a) && !Occurs(t5, a)
    {
    }
  }

  /**
   * The push configuration builds one client and sets one address, one
   * message model and one subscription.
   */
  lemma PushSetupConfig(addr: string, group: string, topic: string, meta: ConsumerMeta, instanceId: string)
    ensures var t := PushSetup(addr, group, topic, meta, instanceId);
      && ConfiguredWith(t, addr, meta.messageModel, Some(Subscribe(topic, Join(meta.tags))))
      && Constructs(t) == 1
  {
    var t1 := [Construct(PushKind, group)];
    var t2 := t1 + [SetNamesrv(addr)];
    var t3 := t2 + [SetMessageModel(meta.messageModel)];
    var t4 := t3 + [Subscribe(topic, Join(meta.tags))];
    assert PushSetup(addr, group, topic, meta, instanceId) == t4 + [SetInstance(instanceId)];
    assert Constructs(t1) == 1 && Constructs(t2) == 1 && Constructs(t3) == 1 && Constructs(t4) == 1;
  }

  /**
   * Finishing a push binding keeps every call of the setup, registers the
   * listener, then hands the client to the bean, then starts it.
   */
  lemma PushFinishFacts(setup: seq<Action>, k: ListenerKind, name: string)
    ensures var t := PushFinish(setup, k, name);
      && |t| > 0 && t[|t| - 1] == Start
      && Occurs(t, Start)
      && Precedes(t, RegisterListener(k, name), SetConsumer)
      && Precedes(t, SetConsumer, Start)
      && Precedes(t, RegisterListener(k, name), Start)
      && Occurs(t, RegisterListener(k, name))
      && InstanceIds(t) == InstanceIds(setup)
      && Constructs(t) == Constructs(setup)
      && (forall addr, model, sub {:trigger ConfiguredWith(t, addr, model, sub)} ::
            ConfiguredWith(setup, addr, model, sub) ==> ConfiguredWith(t, addr, model, sub))
      && (|setup| > 0 ==> t[0] == setup[0])
      && (forall a {:trigger Occurs(setup, a)} :: Occurs(setup, a) ==> Occurs(t, a))
  {
    var t6 := setup + [RegisterListener(k, name)];
    var t7 := t6 + [SetConsumer];
    assert PushFinish(setup, k, name) == t7 + [Start];
    assert InstanceIds(t6) == InstanceIds(setup);
    assert Constructs(t6) == Constructs(setup) && Constructs(t7) == Constructs(setup);
    forall addr, model, sub | ConfiguredWith(setup, addr, model, sub)
      ensures ConfiguredWith(t7 + [Start], addr, model, sub)
    {
      forall a | a in t7 + [Start]
        ensures ConfigCallAgrees(a, addr, model, sub)
      {
        assert a in setup || a == RegisterListener(k, name) || a == SetConsumer || a == Start;
      }
    }
    assert Occurs(t6, RegisterListener(k, name)) && Occurs(t7, RegisterListener(k, name));
    assert Precedes(t7, RegisterListener(k, name), SetConsumer);
    assert Occurs(t7, SetConsumer);
    forall a | Occurs(setup, a)
      ensures Occurs(t7 + [Start], a)
    {
      assert Occurs(t6, a) && Occurs(t7, a);
    }
  }

  /** The pull configuration constructs, addresses, sets the message model and names one instance. */
  lemma PullSetupFacts(addr: string, group: string, meta: ConsumerMeta, instanceId: string)
    ensures var t := PullSetup(addr, group, meta, instanceId);
      && |t| > 0 && t[0] == Construct(PullKind, group)
      && Occurs(t, SetNamesrv(addr))
      && Occurs(t, SetMessageModel(meta.messageModel))
      && InstanceIds(t) == [instanceId]
  {
    var addressed := SetNamesrv(addr);
    var model := SetMessageModel(meta.messageModel);
    var t1 := [Construct(PullKind, group)];
    var t2 := t1 + [addressed];
    var t3 := t2 + [model];
    assert PullSetup(addr, group, meta, instanceId) == t3 + [SetInstance(instanceId)];
    assert InstanceIds(t1) == [] && InstanceIds(t2) == [] && InstanceIds(t3) == [];
    assert Occurs(t2, addressed) && Occurs(t3, addressed) && Occurs(t3, model);
  }

  /** The pull configuration builds one client and sets one address and one message model. */
  lemma PullSetupConfig(addr: string, group: string, meta: ConsumerMeta, instanceId: string)
    ensures var t := PullSetup(addr, group, meta, instanceId);
      && ConfiguredWith(t, addr, meta.messageModel, None)
      && Constructs(t) == 1
  {
    var t1 := [Construct(PullKind, group)];
    var t2 := t1 + [SetNamesrv(addr)];
    var t3 := t2 + [SetMessageModel(meta.messageModel)];
    assert PullSetup(addr, group, meta, instanceId) == t3 + [SetInstance(instanceId)];
    assert Constructs(t1) == 1 && Constructs(t2) == 1 && Constructs(t3) == 1;
  }

  /**
   * Finishing a pull binding keeps every call of the setup and orders start,
   * topic, client and inner start.
   */
  lemma PullFinishFacts(setup: seq<Action>, topic: string)
    ensures var t := PullFinish(setup, topic);
      && |t| > 0 && t[|t| - 1] == StartInner
      && (|setup| > 0 ==> t[0] == setup[0])
      && InstanceIds(t) == InstanceIds(setup)
      && Constructs(t) == Constructs(setup)
      && (forall addr, model, sub {:trigger ConfiguredWith(t, addr, model, sub)} ::
            ConfiguredWith(setup, addr, model, sub) ==> ConfiguredWith(t, addr, model, sub))
      && Occurs(t, Start)
      && Precedes(t, Start, SetTopic(topic))
      && Precedes(t, SetTopic(topic), SetConsumer)
      && Precedes(t, SetConsumer, StartInner)
      && (forall a {:trigger Occurs(setup, a)} :: Occurs(setup, a) ==> Occurs(t, a))
  {
    var t5 := setup + [Start];
    var t6 := t5 + [SetTopic(topic)];
    var t7 := t6 + [SetConsumer];
    assert PullFinish(setup, topic) == t7 + [StartInner];
    assert InstanceIds(t5) == InstanceIds(setup) && InstanceIds(t6) == InstanceIds(setup);
    assert Constructs(t5) == Constructs(setup) && Constructs(t6) == Constructs(setup) && Constructs(t7) == Constructs(setup);
    forall addr, model, sub | ConfiguredWith(setup, addr, model, sub)
      ensures ConfiguredWith(t7 + [StartInner], addr, model, sub)
    {
      forall a | a in t7 + [StartInner]
        ensures ConfigCallAgrees(a, addr, model, sub)
      {
        assert a in setup || a == Start || a == SetTopic(topic) || a == SetConsumer || a == StartInner;
      }
    }
    assert Occurs(t5, Start) && Occurs(t6, Start) && Occurs(t7, Start);
    assert Occurs(t6, SetTopic(topic)) && Occurs(t7, SetTopic(topic));
    assert Precedes(t6, Start, SetTopic(topic)) && Precedes(t7, Start, SetTopic(topic));
    forall a | Occurs(setup, a)
      ensures Occurs(t7 + [StartInner], a)
    {
      assert Occurs(t5, a) && Occurs(t6, a) && Occurs(t7, a);
    }
  }

  /**
   * The push path: construct for the group, address the client, set its
   * message model, subscribe to the topic with the joined tag filter and name
   * the instance; then register the listener that the consume mode selects
   * for the bean's handler, hand the client to the bean and start it. An
   * unknown mode throws after the client was configured but before any
   * listener, hand-over or start.
   */
  function PushPath(addr: string, group: string, topic: string, meta: ConsumerMeta,
                    name: string, h: Handler, instanceId: string): (r: Run)
    ensures |r.trace| > 0 && r.trace[0] == Construct(PushKind, group)
    ensures Occurs(r.trace, SetNamesrv(addr)) && Occurs(r.trace, SetMessageModel(meta.messageModel))
    ensures Occurs(r.trace, Subscribe(topic, Join(meta.tags)))
    ensures ConfiguredWith(r.trace, addr, meta.messageModel, Some(Subscribe(topic, Join(meta.tags))))
    ensures Constructs(r.trace) == 1
    ensures InstanceIds(r.trace) == [instanceId]
    ensures r.outcome.Pass? <==> ListenerKindOf(meta.consumeMode).Some?
    ensures r.outcome.Fail? ==>
      && r.outcome.error == UnknownConsumeMode
      && !Occurs(r.trace, Start)
      && !Occurs(r.trace, SetConsumer)
      && forall a: Action {:trigger Occurs(r.trace, a)} :: a.RegisterListener? ==> !Occurs(r.trace, a)
    ensures r.outcome.Pass? ==>
      var k := ListenerKindOf(meta.consumeMode).value;
      && Precedes(r.trace, RegisterListener(k, name), SetConsumer)
      && Precedes(r.trace, SetConsumer, Start)
      && Precedes(r.trace, RegisterListener(k, name), Start)
      && Occurs(r.trace, RegisterListener(k, name))
      && r.trace[|r.trace| - 1] == Start
      && Occurs(r.trace, Start)
  {
    var setup := PushSetup(addr, group, topic, meta, instanceId);
    PushSetupFacts(addr, group, topic, meta, instanceId);
    PushSetupConfig(addr, group, topic, meta, instanceId);
    match Adapt(meta.consumeMode, h)
    case None => Run(setup, Fail(UnknownConsumeMode))
    case Some(l) =>
      PushFinishFacts(setup, KindOf(l), name);
      Run(PushFinish(setup, KindOf(l), name), Pass)
  }

  /**
   * The pull path: construct for the group, address the client, set its
   * message model, name the instance and start the client; only then hand
   * the bean its topic and its client, and call the bean's inner start.
   */
  function PullPath(addr: string, group: string, topic: string, meta: ConsumerMeta, instanceId: string): (r: Run)
    ensures r.outcome.Pass?
    ensures |r.trace| > 0 && r.trace[0] == Construct(PullKind, group)
    ensures Occurs(r.trace, SetNamesrv(addr)) && Occurs(r.trace, SetMessageModel(meta.messageModel))
    ensures ConfiguredWith(r.trace, addr, meta.messageModel, None)
    ensures Constructs(r.trace) == 1
    ensures InstanceIds(r.trace) == [instanceId]
    ensures Occurs(r.trace, Start)
    ensures Precedes(r.trace, Start, SetTopic(topic))
    ensures Precedes(r.trace, SetTopic(topic), SetConsumer)
    ensures Precedes(r.trace, SetConsumer, StartInner)
    ensures r.trace[|r.trace| - 1] == StartInner
  {
    var setup := PullSetup(addr, group, meta, instanceId);
    PullSetupFacts(addr, group, meta, instanceId);
    PullSetupConfig(addr, group, meta, instanceId);
    PullFinishFacts(setup, topic);
    Run(PullFinish(setup, topic), Pass)
  }

  /**
   * Binding one consumer bean. A failed check raises its error before any
   * client call. Otherwise group and topic are resolved and the client is
   * built for the group with the configured address and the declared message
   * model, on the push path whenever the class is a push consumer (even if
   * it is also a pull consumer) and on the pull path only otherwise. A push
   * client subscribes to the resolved topic and gets the listener over this
   * bean's handler; a pull bean is given the resolved topic after its client
   * started. The client is started exactly when the binding succeeds.
   */
  function PublishConsumer(props: Props, env: Env, bean: ConsumerBean, instanceId: string): (r: Run)
    ensures !Valid(props, bean) ==> r.trace == [] && r.outcome == Validate(props, bean)
    ensures Valid(props, bean) ==>
      && |r.trace| > 0
      && r.trace[0] == Construct(if bean.push then PushKind else PullKind, Resolve(env, bean.meta.consumerGroup))
      && Occurs(r.trace, SetNamesrv(props.nameServerAddress))
      && Occurs(r.trace, SetMessageModel(bean.meta.messageModel))
    ensures Valid(props, bean) && bean.push ==>
      Occurs(r.trace, Subscribe(Resolve(env, bean.meta.topic), Join(bean.meta.tags)))
    ensures Valid(props, bean) ==>
      ConfiguredWith(r.trace, props.nameServerAddress, bean.meta.messageModel,
                     if bean.push then Some(Subscribe(Resolve(env, bean.meta.topic), Join(bean.meta.tags))) else None)
    ensures Constructs(r.trace) == if Valid(props, bean) then 1 else 0
    ensures Valid(props, bean) && !bean.push ==>
      Precedes(r.trace, Start, SetTopic(Resolve(env, bean.meta.topic)))
    ensures r.outcome.Pass? <==>
      Valid(props, bean) && (bean.push ==> ListenerKindOf(bean.meta.consumeMode).Some?)
    ensures Valid(props, bean) && bean.push && ListenerKindOf(bean.meta.consumeMode).None? ==>
      r.outcome == Fail(UnknownConsumeMode) && !Occurs(r.trace, SetConsumer)
    ensures r.outcome.Pass? && bean.push ==>
      && Adapt(bean.meta.consumeMode, bean.handler).Some?
      && Occurs(r.trace, RegisterListener(KindOf(Adapt(bean.meta.consumeMode, bean.handler).value), bean.name))
    ensures Occurs(r.trace, Start) <==> r.outcome.Pass?
    ensures InstanceIds(r.trace) == if Valid(props, bean) then [instanceId] else []
  {
    match Validate(props, bean)
    case Fail(e) => Run([], Fail(e))
    case Pass =>
      var group := Resolve(env, bean.meta.consumerGroup);
      var topic := Resolve(env, bean.meta.topic);
      if bean.push then PushPath(props.nameServerAddress, group, topic, bean.meta, bean.name, bean.handler, instanceId)
      else PullPath(props.nameServerAddress, group, topic, bean.meta, instanceId)
  }

  /**
   * The push path follows the client lifecycle: on success it takes a fresh
   * client to Ready, with the listener registered before the start; on an
   * unknown mode it leaves a configured client that was never started.
   */
  lemma PushFollowsLifecycle(addr: string, group: string, topic: string, meta: ConsumerMeta,
                             name: string, h: Handler, instanceId: string, p: Phase)
    requires Idle(p) && addr != "" && group != "" && topic != ""
    ensures var r := PushPath(addr, group, topic, meta, name, h, instanceId);
      && (r.outcome.Pass? ==> Replay(p, r.trace) == Some(Ready))
      && (r.outcome.Fail? ==> Replay(p, r.trace) == Some(Configuring(PushKind)))
  {
    var setup := PushSetup(addr, group, topic, meta, instanceId);
    PushSetupReplays(addr, group, topic, meta, instanceId, p);
    match Adapt(meta.consumeMode, h)
    case None =>
    case Some(l) =>
      PushFinishReplays(setup, KindOf(l), name, p);
  }

  /** From an idle client, the push configuration leaves a configured push client. */
  lemma PushSetupReplays(addr: string, group: string, topic: string, meta: ConsumerMeta,
                         instanceId: string, p: Phase)
    requires Idle(p) && addr != "" && group != "" && topic != ""
    ensures Replay(p, PushSetup(addr, group, topic, meta, instanceId)) == Some(Configuring(PushKind))
  {
    var c := Configuring(PushKind);
    var t1 := [Construct(PushKind, group)];
    var t2 := t1 + [SetNamesrv(addr)];
    var t3 := t2 + [SetMessageModel(meta.messageModel)];
    var t4 := t3 + [Subscribe(topic, Join(meta.tags))];
    assert PushSetup(addr, group, topic, meta, instanceId) == t4 + [SetInstance(instanceId)];
    assert Replay(p, t1) == Some(c) && Replay(p, t2) == Some(c) && Replay(p, t3) == Some(c);
    assert Replay(p, t4) == Some(c);
  }

  /** A configured push client goes through listening to Ready. */
  lemma PushFinishReplays(setup: seq<Action>, k: ListenerKind, name: string, p: Phase)
    requires Replay(p, setup) == Some(Configuring(PushKind))
    ensures Replay(p, PushFinish(setup, k, name)) == Some(Ready)
  {
    var t6 := setup + [RegisterListener(k, name)];
    var t7 := t6 + [SetConsumer];
    assert PushFinish(setup, k, name) == t7 + [Start];
    assert Replay(p, t6) == Some(Listening) && Replay(p, t7) == Some(Listening);
  }

  /**
   * The pull path follows the client lifecycle from an idle client to Ready:
   * the client is started before the bean is given its topic and client.
   */
  lemma PullFollowsLifecycle(addr: string, group: string, topic: string, meta: ConsumerMeta,
                             instanceId: string, p: Phase)
    requires Idle(p) && addr != "" && group != "" && topic != ""
    ensures Replay(p, PullPath(addr, group, topic, meta, instanceId).trace) == Some(Ready)
  {
    PullSetupReplays(addr, group, meta, instanceId, p);
    PullFinishReplays(PullSetup(addr, group, meta, instanceId), topic, p);
  }

  /** From an idle client, the pull configuration leaves a configured pull client. */
  lemma PullSetupReplays(addr: string, group: string, meta: ConsumerMeta, instanceId: string, p: Phase)
    requires Idle(p) && addr != "" && group != ""
    ensures Replay(p, PullSetup(addr, group, meta, instanceId)) == Some(Configuring(PullKind))
  {
    var c := Configuring(PullKind);
    var t1 := [Construct(PullKind, group)];
    var t2 := t1 + [SetNamesrv(addr)];
    var t3 := t2 + [SetMessageModel(meta.messageModel)];
    assert PullSetup(addr, group, meta, instanceId) == t3 + [SetInstance(instanceId)];
    assert Replay(p, t1) == Some(c) && Replay(p, t2) == Some(c) && Replay(p, t3) == Some(c);
  }

  /** A configured pull client is started, handed over with its topic and started inside. */
  lemma PullFinishReplays(setup: seq<Action>, topic: string, p: Phase)
    requires Replay(p, setup) == Some(Configuring(PullKind)) && topic != ""
    ensures Replay(p, PullFinish(setup, topic)) == Some(Ready)
  {
    var t5 := setup + [Start];
    var t6 := t5 + [SetTopic(topic)];
    var t7 := t6 + [SetConsumer];
    assert PullFinish(setup, topic) == t7 + [StartInner];
    assert Replay(p, t5) == Some(PullStarted) && Replay(p, t6) == Some(TopicHanded);
    assert Replay(p, t7) == Some(ClientHanded);
  }

  /**
   * Each binding follows the client lifecycle: a successful one takes a fresh
   * client from an idle phase to Ready with no protocol violation; a failed
   * one leaves at most a configured, unstarted push client.
   */
  lemma PublishFollowsLifecycle(props: Props, env: Env, bean: ConsumerBean, instanceId: string, p: Phase)
    requires Idle(p)
    ensures var r := PublishConsumer(props, env, bean, instanceId);
      && (r.outcome.Pass? ==> Replay(p, r.trace) == Some(Ready))
      && (r.outcome.Fail? ==> Replay(p, r.trace) == Some(p) || Replay(p, r.trace) == Some(Configuring(PushKind)))
  {
    if Valid(props, bean) {
      var group := Resolve(env, bean.meta.consumerGroup);
      var topic := Resolve(env, bean.meta.topic);
      if bean.push {
        PushFollowsLifecycle(props.nameServerAddress, group, topic, bean.meta, bean.name, bean.handler, instanceId, p);
      } else {
        PullFollowsLifecycle(props.nameServerAddress, group, topic, bean.meta, instanceId, p);
      }
    }
  }

  /** The bindings of the beans, each computed as if it were reached. */
  function Bindings(props: Props, env: Env, beans: seq<ConsumerBean>, ids: seq<string>): (runs: seq<Run>)
    requires |ids| == |beans|
    ensures |runs| == |beans|
    decreases |beans|
  {
    if |beans| == 0 then []
    else [PublishConsumer(props, env, beans[0], ids[0])] + Bindings(props, env, beans[1..], ids[1..])
  }

  /** The i-th binding is the publication of the i-th bean with the i-th id. */
  lemma {:induction false} BindingsAt(props: Props, env: Env, beans: seq<ConsumerBean>, ids: seq<string>, i: nat)
    requires |ids| == |beans| && i < |beans|
    ensures Bindings(props, env, beans, ids)[i] == PublishConsumer(props, env, beans[i], ids[i])
    decreases i
  {
    if i > 0 {
      var rest := Bindings(props, env, beans[1..], ids[1..]);
      assert Bindings(props, env, beans, ids)[i] == rest[i - 1];
      BindingsAt(props, env, beans[1..], ids[1..], i - 1);
      assert beans[1..][i - 1] == beans[i] && ids[1..][i - 1] == ids[i];
    }
  }

  /**
   * The startup loop over the consumer beans in container order. `ids` are
   * the fresh instance names, one per bean. No beans: no call and success.
   * Otherwise it succeeds exactly when every binding does, making every
   * binding's calls in bean order, and a failure carries the error of one of
   * the bindings (`InitOutcome` and
   * `InitFailsWithBeanError` state this per bean, `InitFailFast` says which one).
   */
  function Init(props: Props, env: Env, beans: seq<ConsumerBean>, ids: seq<string>): (r: Run)
    requires |ids| == |beans|
    ensures |beans| == 0 ==> r == Run([], Pass)
    ensures r.outcome.Pass? <==> AllPass(Bindings(props, env, beans, ids))
    ensures r.outcome.Pass? ==> r.trace == Flatten(Bindings(props, env, beans, ids))
    ensures r.outcome.Fail? ==>
      exists i :: 0 <= i < |beans| && r.outcome == Bindings(props, env, beans, ids)[i].outcome
  {
    var runs := Bindings(props, env, beans, ids);
    var r := RunAll(runs);
    assert r.outcome.Pass? <==> AllPass(runs);
    r
  }

  /** Startup succeeds exactly when every bean's binding succeeds. */
  lemma {:induction false} InitOutcome(props: Props, env: Env, beans: seq<ConsumerBean>, ids: seq<string>)
    requires |ids| == |beans|
    ensures Init(props, env, beans, ids).outcome.Pass? <==>
      forall i {:trigger Passes(PublishConsumer(props, env, beans[i], ids[i]))} :: 0 <= i < |beans| ==>
        Passes(PublishConsumer(props, env, beans[i], ids[i]))
  {
    var runs := Bindings(props, env, beans, ids);
    forall i | 0 <= i < |beans|
      ensures Passes(runs[i]) == Passes(PublishConsumer(props, env, beans[i], ids[i]))
    {
      BindingsAt(props, env, beans, ids, i);
    }
  }

  /** A failed startup throws the error of one of the beans. */
  lemma {:induction false} InitFailsWithBeanError(props: Props, env: Env, beans: seq<ConsumerBean>, ids: seq<string>)
    requires |ids| == |beans|
    ensures var r := Init(props, env, beans, ids);
      r.outcome.Fail? ==>
        exists i :: 0 <= i < |beans| && r.outcome == PublishConsumer(props, env, beans[i], ids[i]).outcome
  {
    var runs := Bindings(props, env, beans, ids);
    if RunAll(runs).outcome.Fail? {
      var j :| 0 <= j < |runs| && RunAll(runs).outcome == runs[j].outcome;
      BindingsAt(props, env, beans, ids, j);
    }
  }

  /**
   * Fail-fast: when bean `k` is the first whose binding throws, the loop's
   * result is that of the beans up to and including `k` alone: the calls of
   * bindings 0..k in order, no call of a later bean, and bean `k`'s error.
   */
  lemma {:induction false} InitFailFast(props: Props, env: Env, beans: seq<ConsumerBean>, ids: seq<string>, k: nat)
    requires |ids| == |beans| && k < |beans|
    requires forall i :: 0 <= i < k ==> PublishConsumer(props, env, beans[i], ids[i]).outcome.Pass?
    requires PublishConsumer(props, env, beans[k], ids[k]).outcome.Fail?
    ensures Init(props, env, beans, ids).trace == Init(props, env, beans[..k + 1], ids[..k + 1]).trace
    ensures Init(props, env, beans, ids).outcome == PublishConsumer(props, env, beans[k], ids[k]).outcome
    ensures Init(props, env, beans, ids).trace == Flatten(Bindings(props, env, beans, ids)[..k + 1])
  {
    var runs := Bindings(props, env, beans, ids);
    forall i | 0 <= i < k
      ensures Passes(runs[i])
    {
      BindingsAt(props, env, beans, ids, i);
    }
    BindingsAt(props, env, beans, ids, k);
    InitStopsAt(props, env, beans, ids, k);
    RunAllStopsAtFirstFailure(runs, k);
  }

  /** `InitFailFast` stated over the bindings rather than the beans. */
  lemma InitStopsAt(props: Props, env: Env, beans: seq<ConsumerBean>, ids: seq<string>, k: nat)
    requires |ids| == |beans| && k < |beans|
    requires forall i :: 0 <= i < k ==> Passes(Bindings(props, env, beans, ids)[i])
    requires Bindings(props, env, beans, ids)[k].outcome.Fail?
    ensures Init(props, env, beans, ids) == Init(props, env, beans[..k + 1], ids[..k + 1])
    ensures Init(props, env, beans, ids).outcome == Bindings(props, env, beans, ids)[k].outcome
  {
    BindingsPrefix(props, env, beans, ids, k + 1);
    RunAllOfPrefix(Bindings(props, env, beans, ids), Bindings(props, env, beans[..k + 1], ids[..k + 1]), k);
  }

  /** The bindings of a prefix of the beans are the prefix of their bindings. */
  lemma BindingsPrefix(props: Props, env: Env, beans: seq<ConsumerBean>, ids: seq<string>, n: nat)
    requires |ids| == |beans| && n <= |beans|
    ensures Bindings(props, env, beans, ids)[..n] == Bindings(props, env, beans[..n], ids[..n])
  {
    var runs := Bindings(props, env, beans, ids);
    var prefix := Bindings(props, env, beans[..n], ids[..n]);
    forall i | 0 <= i < n
      ensures runs[..n][i] == prefix[i]
    {
      BindingsAt(props, env, beans, ids, i);
      BindingsAt(props, env, beans[..n], ids[..n], i);
      assert beans[..n][i] == beans[i] && ids[..n][i] == ids[i];
    }
  }

  /**
   * The instance names the loop assigns are a prefix of the supplied fresh
   * names, in order, and all of them on success; so when the supplied names are pairwise distinct, no two
   * bound clients share an instance name.
   */
  lemma {:induction false} InitInstanceIds(props: Props, env: Env, beans: seq<ConsumerBean>, ids: seq<string>)
    requires |ids| == |beans|
    ensures var got := InstanceIds(Init(props, env, beans, ids).trace);
      |got| <= |ids| && got == ids[..|got|]
    ensures (forall i, j :: 0 <= i < j < |ids| ==> ids[i] != ids[j]) ==>
      var got := InstanceIds(Init(props, env, beans, ids).trace);
      forall i, j :: 0 <= i < j < |got| ==> got[i] != got[j]
    ensures Init(props, env, beans, ids).outcome.Pass? ==> InstanceIds(Init(props, env, beans, ids).trace) == ids
  {
    var runs := Bindings(props, env, beans, ids);
    forall i | 0 <= i < |runs|
      ensures AssignsId(runs[i], ids[i])
    {
      BindingsAt(props, env, beans, ids, i);
    }
    RunAllInstanceIds(runs, ids);
  }

  /** A successful startup constructs exactly one client per consumer bean. */
  lemma {:induction false} InitConstructsOnePerBean(props: Props, env: Env, beans: seq<ConsumerBean>, ids: seq<string>)
    requires |ids| == |beans|
    requires Init(props, env, beans, ids).outcome.Pass?
    ensures Constructs(Init(props, env, beans, ids).trace) == |beans|
  {
    var runs := Bindings(props, env, beans, ids);
    forall i | 0 <= i < |runs|
      ensures Passes(runs[i]) ==> Constructs(runs[i].trace) == 1
    {
      BindingsAt(props, env, beans, ids, i);
    }
    RunAllConstructs(runs);
  }

  /**
   * A successful startup replays through the client lifecycle without a
   * violation and, unless there were no beans, ends with the last client
   * Ready.
   */
  lemma {:induction false} InitFollowsLifecycle(props: Props, env: Env, beans: seq<ConsumerBean>, ids: seq<string>, p: Phase)
    requires |ids| == |beans| && Idle(p)
    requires Init(props, env, beans, ids).outcome.Pass?
    ensures Replay(p, Init(props, env, beans, ids).trace) == Some(if |beans| == 0 then p else Ready)
  {
    var runs := Bindings(props, env, beans, ids);
    forall i | 0 <= i < |runs|
      ensures Settles(runs[i])
    {
      BindingsAt(props, env, beans, ids, i);
      PublishFollowsLifecycle(props, env, beans[i], ids[i], Unbound);
      PublishFollowsLifecycle(props, env, beans[i], ids[i], Ready);
    }
    RunAllFollowsLifecycle(runs, p);
  }
}

=== FILE: delivery.dfy ===
/**
 * The delivery adapters a push consumer registers: each listener forwards the
 * broker's batch and context to the bean's `dealMessage` and returns its
 * status. Messages and contexts are opaque records: the adapters never look
 * inside them.
 */
module Delivery {
  import opened Results
  import opened Actions

  /** ConsumeConcurrentlyStatus. */
  datatype ConcurrentStatus = ConsumeSuccess | ReconsumeLater

  /** ConsumeOrderlyStatus. */
  datatype OrderlyStatus = Success | Rollback | Commit | SuspendCurrentQueueAMoment

  /** A delivered MessageExt, reduced to what identifies it. */
  datatype Message = Message(msgId: string, body: seq<int>)

  /** ConsumeConcurrentlyContext: the retry level and ack index the handler may set. */
  datatype ConcurrentContext = ConcurrentContext(delayLevelWhenNextConsume: int, ackIndex: int)

  /** ConsumeOrderlyContext: the commit and suspend settings the handler may set. */
  datatype OrderlyContext = OrderlyContext(autoCommit: bool, suspendCurrentQueueTimeMillis: int)

  /** A push bean's two `dealMessage` overloads, one per context type. */
  datatype Handler = Handler(
    dealConcurrently: (seq<Message>, ConcurrentContext) -> ConcurrentStatus,
    dealOrderly: (seq<Message>, OrderlyContext) -> OrderlyStatus)

  /** A MessageListenerConcurrently or a MessageListenerOrderly. */
  datatype Listener =
    | Concurrently(consumeConcurrently: (seq<Message>, ConcurrentContext) -> ConcurrentStatus)
    | Orderly(consumeOrderly: (seq<Message>, OrderlyContext) -> OrderlyStatus)

  function KindOf(l: Listener): ListenerKind
  {
    match l
    case Concurrently(_) => ConcurrentListener
    case Orderly(_) => OrderlyListener
  }

  /**
   * The consume-mode dispatch: the annotation string is compared exactly with
   * "CONCURRENTLY" and then with "ORDERLY"; anything else is not supported.
   */
  function ListenerKindOf(mode: string): (r: Option<ListenerKind>)
    ensures r == Some(ConcurrentListener) <==> mode == "CONCURRENTLY"
    ensures r == Some(OrderlyListener) <==> mode == "ORDERLY"
    ensures r.None? <==> mode != "CONCURRENTLY" && mode != "ORDERLY"
  {
    if mode == "CONCURRENTLY" then Some(ConcurrentListener)
    else if mode == "ORDERLY" then Some(OrderlyListener)
    else None
  }

  /**
   * The listener built for a consume mode. For every batch and context it
   * hands exactly that batch (same messages, same order) and that context to
   * the matching `dealMessage` and returns the handler's status unchanged.
   */
  function Adapt(mode: string, h: Handler): (r: Option<Listener>)
    ensures r.Some? <==> ListenerKindOf(mode).Some?
    ensures r.Some? ==> KindOf(r.value) == ListenerKindOf(mode).value
    ensures r.Some? && r.value.Concurrently? ==>
      forall msgs: seq<Message>, ctx: ConcurrentContext :: r.value.consumeConcurrently(msgs, ctx) == h.dealConcurrently(msgs, ctx)
    ensures r.Some? && r.value.Orderly? ==>
      forall msgs: seq<Message>, ctx: OrderlyContext :: r.value.consumeOrderly(msgs, ctx) == h.dealOrderly(msgs, ctx)
  {
    match ListenerKindOf(mode)
    case None => None
    case Some(ConcurrentListener) =>
      Some(Concurrently((msgs: seq<Message>, ctx: ConcurrentContext) => h.dealConcurrently(msgs, ctx)))
    case Some(OrderlyListener) =>
      Some(Orderly((msgs: seq<Message>, ctx: OrderlyContext) => h.dealOrderly(msgs, ctx)))
  }
}

=== FILE: lifecycle.dfy ===
/**
 * The per-client lifecycle the binders must follow, as an automaton over the
 * action trace: Unbound, then constructed and configured, then (push only)
 * listener installed, then started, then Ready. A trace the automaton rejects
 * is a protocol violation: a start before the listener, configuration after
 * start, an empty group, topic or address.
 */
module Lifecycle {
  import opened Results
  import opened Actions

  datatype Phase =
    | Unbound                  // no client is being bound
    | Configuring(kind: ClientKind)
    | Listening                // push client with its listener, not yet started
    | PullStarted              // pull client started, not yet handed to the bean
    | TopicHanded              // pull bean has its topic
    | ClientHanded             // pull bean has its client
    | Ready                    // the client is started and wired; the next may begin

  /** An idle phase: no client is half bound. */
  predicate Idle(p: Phase)
  {
    p == Unbound || p == Ready
  }

  /** One transition, or None when the action is not allowed in this phase. */
  function Step(p: Phase, a: Action): Option<Phase>
  {
    match a
    case Construct(k, g) =>
      if Idle(p) && g != "" then Some(Configuring(k)) else None
    case SetNamesrv(addr) =>
      if p.Configuring? && addr != "" then Some(p) else None
    case SetMessageModel(_) =>
      if p.Configuring? && p.kind != ProducerKind then Some(p) else None
    case SetInstance(_) =>
      if p.Configuring? && p.kind != ProducerKind then Some(p) else None
    case Subscribe(t, _) =>
      if p == Configuring(PushKind) && t != "" then Some(p) else None
    case RegisterListener(_, _) =>
      if p == Configuring(PushKind) then Some(Listening) else None
    case SetConsumer =>
      if p == Listening then Some(Listening)
      else if p == TopicHanded then Some(ClientHanded)
      else None
    case Start =>
      if p == Listening || p == Configuring(ProducerKind) then Some(Ready)
      else if p == Configuring(PullKind) then Some(PullStarted)
      else None
    case SetTopic(t) =>
      if p == PullStarted && t != "" then Some(TopicHanded) else None
    case StartInner =>
      if p == ClientHanded then Some(Ready) else None
  }

  /** The phase reached by replaying the trace from `p`, or None if it gets stuck. */
  function Replay(p: Phase, trace: seq<Action>): Option<Phase>
    decreases |trace|
  {
    if |trace| == 0 then Some(p)
    else
      match Replay(p, trace[..|trace| - 1])
      case None => None
      case Some(q) => Step(q, trace[|trace| - 1])
  }

  /** Replaying a concatenation replays the first part, then the second from where it ended. */
  lemma {:induction false} ReplayAppend(p: Phase, a: seq<Action>, b: seq<Action>)
    ensures Replay(p, a + b) == (match Replay(p, a) case None => None case Some(q) => Replay(q, b))
    decreases |b|
  {
    if |b| == 0 {
      assert a + b == a;
    } else {
      var b' := b[..|b| - 1];
      assert (a + b)[..|a + b| - 1] == a + b';
      assert (a + b)[|a + b| - 1] == b[|b| - 1];
      ReplayAppend(p, a, b');
    }
  }

  /** A run that, when it succeeds, takes either idle phase to `Ready`. */
  predicate Settles(run: Run)
  {
    Passes(run) ==> Replay(Unbound, run.trace) == Some(Ready) && Replay(Ready, run.trace) == Some(Ready)
  }

  /**
   * When every run settles and the loop over them succeeds, the loop's
   * calls take an idle phase to `Ready` (or leave it alone when there are
   * no runs).
   */
  lemma {:induction false} RunAllFollowsLifecycle(runs: seq<Run>, p: Phase)
    requires Idle(p)
    requires forall i :: 0 <= i < |runs| ==> Settles(runs[i])
    requires RunAll(runs).outcome.Pass?
    ensures Replay(p, RunAll(runs).trace) == Some(if |runs| == 0 then p else Ready)
    decreases |runs|
  {
    if |runs| > 0 {
      var rest := RunAll(runs[1..]);
      assert Passes(runs[0]) && Settles(runs[0]);
      assert RunAll(runs).trace == runs[0].trace + rest.trace;
      assert forall i :: 0 <= i < |runs[1..]| ==> runs[1..][i] == runs[i + 1];
      RunAllFollowsLifecycle(runs[1..], Ready);
      ReplayAppend(p, runs[0].trace, rest.trace);
    }
  }
}

=== FILE: producer.dfy ===
/**
 * The producer binder: when at least one bean is annotated as a producer,
 * make sure the one shared producer client exists (constructing and starting
 * it only when the cell is still empty), then give every producer bean that
 * client and its resolved default topic and tag.
 */
module ProducerBinder {
  import opened Results
  import opened Config
  import opened Actions
  import Seqs

  /**
   * The shared DefaultMQProducer. `handle` stands for its object identity:
   * two separately constructed clients have different handles even when their
   * group and address agree.
   */
  datatype SharedProducer = SharedProducer(handle: nat, group: string, namesrvAddr: string)

  /** The producer annotation's attributes. */
  datatype ProducerMeta = ProducerMeta(topic: string, tag: string)

  /**
   * A producer bean: its container name, whether its class extends the
   * producer base class, its annotation, and the base class's fields the
   * binder writes (client, default topic, default tag).
   */
  datatype ProducerBean = ProducerBean(
    name: string,
    isProducer: bool,
    meta: ProducerMeta,
    producer: Option<SharedProducer>,
    topic: string,
    tag: string)

  /** The beans after the loop, and how the loop ended. */
  datatype Binding = Binding(beans: seq<ProducerBean>, outcome: Outcome<BindError>)

  /** The state after one `init`: the producer cell, the beans, the client calls, the outcome. */
  datatype ProducerRun = ProducerRun(
    cell: Option<SharedProducer>,
    beans: seq<ProducerBean>,
    trace: seq<Action>,
    outcome: Outcome<BindError>)

  /** The bean was bound to `shared` and otherwise kept its identity and annotation. */
  predicate BoundTo(before: ProducerBean, after: ProducerBean, shared: SharedProducer)
  {
    && after.name == before.name
    && after.isProducer == before.isProducer
    && after.meta == before.meta
    && after.producer == Some(shared)
  }

  /**
   * Binding one bean: a bean whose class is not a producer throws, naming the
   * bean. Otherwise it receives the shared client; its topic is left as it
   * was when the annotation topic is empty, and otherwise becomes the
   * non-empty environment value for it, or the annotation topic itself; the
   * tag follows the same rule.
   */
  function PublishProducer(env: Env, shared: SharedProducer, bean: ProducerBean): (r: Result<ProducerBean, BindError>)
    ensures r.Failure? <==> !bean.isProducer
    ensures r.Failure? ==> r.error == NotAProducer(bean.name)
    ensures r.Success? ==> BoundTo(bean, r.value, shared)
    ensures r.Success? && bean.meta.topic == "" ==> r.value.topic == bean.topic
    ensures r.Success? && bean.meta.topic != "" ==>
      r.value.topic == (if HasOverride(env, bean.meta.topic) then env[bean.meta.topic] else bean.meta.topic)
    ensures r.Success? && bean.meta.tag == "" ==> r.value.tag == bean.tag
    ensures r.Success? && bean.meta.tag != "" ==>
      r.value.tag == (if HasOverride(env, bean.meta.tag) then env[bean.meta.tag] else bean.meta.tag)
  {
    if !bean.isProducer then Failure(NotAProducer(bean.name))
    else
      Success(bean.(producer := Some(shared),
                    topic := ApplyOverride(env, bean.topic, bean.meta.topic),
                    tag := ApplyOverride(env, bean.tag, bean.meta.tag)))
  }

  /**
   * The bean's class extends the producer base class: the field `isProducer`,
   * named as a predicate so that quantifiers over the beans have a trigger.
   */
  predicate ExtendsProducer(bean: ProducerBean)
  {
    bean.isProducer
  }

  /** After the loop, a bean is either untouched or exactly what binding it gives. */
  predicate Handled(env: Env, shared: SharedProducer, before: ProducerBean, after: ProducerBean)
  {
    after == before || PublishProducer(env, shared, before) == Success(after)
  }

  /**
   * The loop over the producer beans, in container order, stopping at the
   * first bean that throws. Every bean keeps its position; a bean is either
   * untouched or bound to the shared client, and on success all are bound.
   */
  function BindAll(env: Env, shared: SharedProducer, beans: seq<ProducerBean>): (r: Binding)
    ensures |r.beans| == |beans|
    ensures forall i {:trigger Handled(env, shared, beans[i], r.beans[i])} :: 0 <= i < |beans| ==> Handled(env, shared, beans[i], r.beans[i])
    ensures r.outcome.Pass? <==> forall i {:trigger ExtendsProducer(beans[i])} :: 0 <= i < |beans| ==> ExtendsProducer(beans[i])
    ensures r.outcome.Pass? ==> forall i {:trigger BoundTo(beans[i], r.beans[i], shared)} :: 0 <= i < |beans| ==> BoundTo(beans[i], r.beans[i], shared)
    ensures r.outcome.Fail? ==>
      exists i :: 0 <= i < |beans| && !ExtendsProducer(beans[i]) && r.outcome == Fail(NotAProducer(beans[i].name))
    decreases |beans|
  {
    if |beans| == 0 then Binding([], Pass)
    else
      match PublishProducer(env, shared, beans[0])
      case Failure(e) =>
        assert !ExtendsProducer(beans[0]);
        Binding(beans, Fail(e))
      case Success(b) =>
        var tail := beans[1..];
        var rest := BindAll(env, shared, tail);
        var bound := [b] + rest.beans;
        assert forall i :: 1 <= i < |beans| ==> beans[i] == tail[i - 1] && bound[i] == rest.beans[i - 1];
        Binding(bound, rest.outcome)
  }

  /** One turn of the loop on a producer bean: bind it, then carry on with the rest. */
  lemma BindAllStep(env: Env, shared: SharedProducer, beans: seq<ProducerBean>)
    requires |beans| > 0 && ExtendsProducer(beans[0])
    ensures var r := BindAll(env, shared, beans);
      && r.beans[0] == PublishProducer(env, shared, beans[0]).value
      && r.beans[1..] == BindAll(env, shared, beans[1..]).beans
      && r.outcome == BindAll(env, shared, beans[1..]).outcome
  {
  }

  /**
   * When bean `k` is the first that is not a producer, the loop throws that
   * bean's error and leaves it and every later bean untouched.
   */
  lemma {:induction false} BindAllStopsAt(env: Env, shared: SharedProducer, beans: seq<ProducerBean>, k: nat)
    requires k < |beans|
    requires forall i :: 0 <= i < k ==> ExtendsProducer(beans[i])
    requires !ExtendsProducer(beans[k])
    ensures var r := BindAll(env, shared, beans);
      r.outcome == Fail(NotAProducer(beans[k].name)) && r.beans[k..] == beans[k..]
    decreases k
  {
    if k > 0 {
      var tail := beans[1..];
      forall i | 0 <= i < k - 1
        ensures ExtendsProducer(tail[i])
      {
        assert tail[i] == beans[i + 1];
      }
      assert tail[k - 1] == beans[k];
      BindAllStopsAt(env, shared, tail, k - 1);
      var r := BindAll(env, shared, beans);
      BindAllStep(env, shared, beans);
      Seqs.DropOfTail(r.beans, k);
      Seqs.DropOfTail(beans, k);
    }
  }

  /** Every bean before the first non-producer is bound. */
  lemma {:induction false} BindAllBindsPrefix(env: Env, shared: SharedProducer, beans: seq<ProducerBean>, k: nat)
    requires k <= |beans|
    requires forall i :: 0 <= i < k ==> ExtendsProducer(beans[i])
    ensures forall i :: 0 <= i < k ==>
      PublishProducer(env, shared, beans[i]) == Success(BindAll(env, shared, beans).beans[i])
    decreases k
  {
    if k > 0 {
      var tail := beans[1..];
      forall i | 0 <= i < k - 1
        ensures ExtendsProducer(tail[i])
      {
        assert tail[i] == beans[i + 1];
      }
      BindAllBindsPrefix(env, shared, tail, k - 1);
      var rest := BindAll(env, shared, tail);
      var r := BindAll(env, shared, beans);
      BindAllStep(env, shared, beans);
      forall i | 0 < i < k
        ensures PublishProducer(env, shared, beans[i]) == Success(r.beans[i])
      {
        assert beans[i] == tail[i - 1] && r.beans[i] == rest.beans[i - 1];
      }
    }
  }

  /**
   * One `init`. With no producer beans nothing happens. Otherwise, when the
   * cell is empty, the producer group is checked, then the name-server
   * address, and only then is the shared client constructed (with the fresh
   * `handle`), addressed and started; when the cell is full it is reused as
   * is. Then every bean is bound to the cell's client.
   */
  function Init(props: Props, env: Env, cell: Option<SharedProducer>, beans: seq<ProducerBean>, handle: nat): (r: ProducerRun)
    ensures |beans| == 0 ==> r == ProducerRun(cell, beans, [], Pass)
    ensures cell.Some? ==> r.cell == cell && r.trace == []
    ensures |beans| > 0 && cell.None? && props.producerGroup == "" ==>
      r == ProducerRun(None, beans, [], Fail(ProducerGroupMissing))
    ensures |beans| > 0 && cell.None? && props.producerGroup != "" && props.nameServerAddress == "" ==>
      r == ProducerRun(None, beans, [], Fail(NameServerMissing))
    ensures cell.None? && r.cell.Some? ==>
      && r.cell.value == SharedProducer(handle, props.producerGroup, props.nameServerAddress)
      && r.trace == [Construct(ProducerKind, props.producerGroup), SetNamesrv(props.nameServerAddress), Start]
    ensures Constructs(r.trace) == (if cell.None? && r.cell.Some? then 1 else 0)
    ensures r.cell.None? ==> r.beans == beans
    ensures |r.beans| == |beans|
    ensures r.cell.Some? ==> forall i :: 0 <= i < |beans| ==> Handled(env, r.cell.value, beans[i], r.beans[i])
    ensures r.outcome.Pass? && |beans| > 0 ==>
      r.cell.Some? && forall i :: 0 <= i < |beans| ==> r.beans[i].producer == r.cell
    ensures r.cell.Some? <==>
      cell.Some? || (|beans| > 0 && props.producerGroup != "" && props.nameServerAddress != "")
    ensures r.outcome.Pass? <==>
      || |beans| == 0
      || (&& (cell.Some? || (props.producerGroup != "" && props.nameServerAddress != ""))
          && forall i {:trigger ExtendsProducer(beans[i])} :: 0 <= i < |beans| ==> ExtendsProducer(beans[i]))
    ensures r.outcome.Fail? && r.cell.Some? ==>
      exists i :: 0 <= i < |beans| && !ExtendsProducer(beans[i]) && r.outcome == Fail(NotAProducer(beans[i].name))
    ensures r.cell.Some? ==>
      var b := BindAll(env, r.cell.value, beans);
      r.beans == b.beans && r.outcome == b.outcome
  {
    if |beans| == 0 then ProducerRun(cell, beans, [], Pass)
    else if cell.None? && props.producerGroup == "" then ProducerRun(cell, beans, [], Fail(ProducerGroupMissing))
    else if cell.None? && props.nameServerAddress == "" then ProducerRun(cell, beans, [], Fail(NameServerMissing))
    else
      var shared := if cell.Some? then cell.value
                    else SharedProducer(handle, props.producerGroup, props.nameServerAddress);
      var trace := if cell.Some? then []
                   else [Construct(ProducerKind, props.producerGroup), SetNamesrv(props.nameServerAddress), Start];
      StartupConstructsOnce(props.producerGroup, props.nameServerAddress);
      var b := BindAll(env, shared, beans);
      assert b.outcome.Pass? ==> forall i :: 0 <= i < |beans| ==> BoundTo(beans[i], b.beans[i], shared);
      ProducerRun(Some(shared), b.beans, trace, b.outcome)
  }

  /**
   * When the client exists and bean `k` is the first that is not a producer,
   * `init` throws that bean's error and keeps what it already did: every
   * earlier bean stays bound to the client, and bean `k` and every later bean
   * are untouched.
   */
  lemma {:induction false} InitKeepsBoundPrefix(props: Props, env: Env, cell: Option<SharedProducer>,
                                                beans: seq<ProducerBean>, handle: nat, k: nat)
    requires k < |beans|
    requires cell.Some? || (props.producerGroup != "" && props.nameServerAddress != "")
    requires forall i :: 0 <= i < k ==> ExtendsProducer(beans[i])
    requires !ExtendsProducer(beans[k])
    ensures var r := Init(props, env, cell, beans, handle);
      && r.cell.Some?
      && r.outcome == Fail(NotAProducer(beans[k].name))
      && (forall i :: 0 <= i < k ==> PublishProducer(env, r.cell.value, beans[i]) == Success(r.beans[i]))
      && r.beans[k..] == beans[k..]
  {
    var r := Init(props, env, cell, beans, handle);
    BindAllStopsAt(env, r.cell.value, beans, k);
    BindAllBindsPrefix(env, r.cell.value, beans, k);
  }

  /** Creating the shared client constructs exactly one client. */
  lemma StartupConstructsOnce(group: string, addr: string)
    ensures Constructs([Construct(ProducerKind, group), SetNamesrv(addr), Start]) == 1
  {
    var t1 := [Construct(ProducerKind, group)];
    var t2 := t1 + [SetNamesrv(addr)];
    assert Constructs(t1) == 1 && Constructs(t2) == 1;
    assert Constructs(t2 + [Start]) == 1;
    assert t2 + [Start] == [Construct(ProducerKind, group), SetNamesrv(addr), Start];
  }

  /** The cell and the client calls accumulated over several `init` calls. */
  datatype Session = Session(cell: Option<SharedProducer>, trace: seq<Action>)

  /**
   * Repeated `init` calls on the same configuration object, each with its own
   * producer beans and fresh handle. Across all of them at most one client is
   * constructed, none when the cell starts full, and a full cell is never
   * replaced.
   */
  function InitMany(props: Props, env: Env, cell: Option<SharedProducer>, calls: seq<seq<ProducerBean>>, handles: seq<nat>): (s: Session)
    requires |handles| == |calls|
    ensures Constructs(s.trace) <= 1
    ensures cell.Some? ==> s.cell == cell && Constructs(s.trace) == 0
    ensures s.cell.None? ==> Constructs(s.trace) == 0
    ensures Constructs(s.trace) == 1 <==> cell.None? && s.cell.Some?
    decreases |calls|
  {
    if |calls| == 0 then Session(cell, [])
    else
      var r := Init(props, env, cell, calls[0], handles[0]);
      var rest := InitMany(props, env, r.cell, calls[1..], handles[1..]);
      ConstructsAppend(r.trace, rest.trace);
      Session(rest.cell, r.trace + rest.trace)
  }
}

=== FILE: results.dfy ===
/** Failure-carrying wrappers shared by the binders. */
module Results {

  /** A value that may be absent; models a Java reference that may be null. */
  datatype Option<+T> = None | Some(value: T)

  /** The outcome of a startup step that either completes or throws. */
  datatype Outcome<+E> = Pass | Fail(error: E)

  /** A step that either produces a value or throws. */
  datatype Result<+T, +E> = Success(value: T) | Failure(error: E)
}

=== FILE: scenarios.dfy ===
/** Concrete startup scenarios and what the binders do in each. */
module Scenarios {
  import opened Results
  import opened Config
  import opened Actions
  import opened TagFilter
  import ConsumerBinder
  import ProducerBinder
  import Delivery

  /** A bean handler that acknowledges every batch. */
  const AckAll: Delivery.Handler := Delivery.Handler(
    (msgs: seq<Delivery.Message>, ctx: Delivery.ConcurrentContext) => Delivery.ConsumeSuccess,
    (msgs: seq<Delivery.Message>, ctx: Delivery.OrderlyContext) => Delivery.Success)

  /**
   * A concurrent push consumer for group "G1" and topic "T1", with the
   * environment mapping "G1" to "G1-prod", binds a client for "G1-prod"
   * subscribed to "T1" with the filter "a||b", registers the concurrent
   * listener over the bean's handler, and starts it.
   */
  lemma GroupOverrideScenario()
    ensures var bean := ConsumerBinder.ConsumerBean("listener", "com.example.Listener", true, false,
              ConsumerBinder.ConsumerMeta("G1", "T1", ["a", "b"], Clustering, "CONCURRENTLY"), AckAll);
      var r := ConsumerBinder.PublishConsumer(Props("ns:9876", ""), map["G1" := "G1-prod"], bean, "id-1");
      && r.outcome.Pass?
      && r.trace[0] == Construct(PushKind, "G1-prod")
      && Occurs(r.trace, Subscribe("T1", "a||b"))
      && Occurs(r.trace, RegisterListener(ConcurrentListener, "listener"))
  {
    var bean := ConsumerBinder.ConsumerBean("listener", "com.example.Listener", true, false,
      ConsumerBinder.ConsumerMeta("G1", "T1", ["a", "b"], Clustering, "CONCURRENTLY"), AckAll);
    assert Join(["a", "b"]) == "a||b" by {
      assert ["a", "b"][1..] == ["b"];
    }
  }

  /** A consumer bean that is neither a push nor a pull consumer aborts naming its class, with no client call. */
  lemma NoCapabilityScenario()
    ensures var bean := ConsumerBinder.ConsumerBean("plain", "com.example.Plain", false, false,
              ConsumerBinder.ConsumerMeta("G1", "T1", ["*"], Clustering, "CONCURRENTLY"), AckAll);
      ConsumerBinder.PublishConsumer(Props("ns:9876", ""), map[], bean, "id-1")
        == Run([], Fail(NotAConsumer("com.example.Plain")))
  {
  }

  /** A push consumer declaring consume mode "UNKNOWN" aborts with the mode error and starts nothing. */
  lemma UnknownModeScenario()
    ensures var bean := ConsumerBinder.ConsumerBean("odd", "com.example.Odd", true, false,
              ConsumerBinder.ConsumerMeta("G1", "T1", ["*"], Broadcasting, "UNKNOWN"), AckAll);
      var r := ConsumerBinder.PublishConsumer(Props("ns:9876", ""), map[], bean, "id-1");
      r.outcome == Fail(UnknownConsumeMode) && !Occurs(r.trace, Start)
  {
  }

  /** With no producer beans, even an empty configuration constructs nothing and raises nothing. */
  lemma NoProducersScenario()
    ensures ProducerBinder.Init(Props("", ""), map[], None, [], 0) == ProducerBinder.ProducerRun(None, [], [], Pass)
  {
  }
}

=== FILE: seqs.dfy ===
/**
 * Slicing facts about sequences, stated once and used by the loop proofs.
 */
module Seqs {

  /** The first `n + 1` elements are the head followed by the first `n` of the tail. */
  lemma PrefixCons<T>(s: seq<T>, n: nat)
    requires n < |s|
    ensures s[..n + 1] == [s[0]] + s[1..][..n]
  {
    assert forall i :: 0 <= i < n ==> s[1..][..n][i] == s[i + 1];
  }

  /** Dropping the head of a prefix is taking a prefix of the tail. */
  lemma TailOfPrefix<T>(s: seq<T>, k: nat)
    requires k < |s|
    ensures s[..k + 1][1..] == s[1..][..k]
  {
  }

  /** Dropping `k - 1` elements of the tail is dropping `k` of the whole. */
  lemma DropOfTail<T>(s: seq<T>, k: nat)
    requires 0 < k <= |s|
    ensures s[1..][k - 1..] == s[k..]
  {
  }
}

=== FILE: tagfilter.dfy ===
/** The subscription expression built from a consumer's declared tags. */
module TagFilter {

  /** The separator StringUtils.join puts between tags: the broker's "or". */
  const Separator: string := "||"

  /** The tag has no '|' character, so it cannot be confused with a separator. */
  predicate Plain(tag: string)
  {
    '|' !in tag
  }

  /** Tags joined with `Separator` between neighbours; no tags give "". */
  function Join(tags: seq<string>): (r: string)
    ensures |tags| == 0 ==> r == ""
    ensures |tags| == 1 ==> r == tags[0]
    ensures |tags| > 1 ==>
      && |r| >= |tags[0]| + 2
      && r[..|tags[0]|] == tags[0]
      && r[|tags[0]|..|tags[0]| + 2] == "||"
  {
    if |tags| == 0 then ""
    else if |tags| == 1 then tags[0]
    else tags[0] + (Separator + Join(tags[1..]))
  }

  /**
   * The reading of a subscription expression: cut left to right at every
   * occurrence of `Separator`. It is the reference against which `Join`
   * is checked.
   */
  function Split(s: string): (parts: seq<string>)
    ensures |parts| >= 1
    decreases |s|
  {
    if |s| == 0 then [""]
    else if |s| >= 2 && s[0] == '|' && s[1] == '|' then [""] + Split(s[2..])
    else
      var rest := Split(s[1..]);
      [[s[0]] + rest[0]] + rest[1..]
  }

  /** A plain prefix is glued to the first piece of what follows it. */
  lemma {:induction false} SplitPlainPrefix(t: string, s: string)
    requires Plain(t)
    ensures Split(t + s) == [t + Split(s)[0]] + Split(s)[1..]
    decreases |t|
  {
    if |t| == 0 {
      assert t + s == s;
      assert t + Split(s)[0] == Split(s)[0];
      assert Split(s) == [Split(s)[0]] + Split(s)[1..];
    } else {
      var u := t + s;
      assert u[0] == t[0] && t[0] != '|';
      assert u[1..] == t[1..] + s;
      SplitPlainPrefix(t[1..], s);
      assert [t[0]] + (t[1..] + Split(s)[0]) == t + Split(s)[0];
    }
  }

  /**
   * The subscription expression reads back as exactly the declared tags, in
   * their declared order, provided there is at least one tag and none of
   * them contains '|'.
   */
  lemma {:induction false} SplitJoin(tags: seq<string>)
    requires |tags| > 0
    requires forall i :: 0 <= i < |tags| ==> Plain(tags[i])
    ensures Split(Join(tags)) == tags
    decreases |tags|
  {
    if |tags| == 1 {
      SplitPlainPrefix(tags[0], "");
      assert tags[0] + "" == tags[0];
    } else {
      var rest := tags[1..];
      SplitJoin(rest);
      var tail := Separator + Join(rest);
      SplitPlainPrefix(tags[0], tail);
      assert tail[0] == '|' && tail[1] == '|';
      assert tail[2..] == Join(rest);
      assert Split(tail) == [""] + rest;
      assert tags[0] + "" == tags[0];
      assert tags == [tags[0]] + rest;
    }
  }
}
